=== FILE: README.md ===
# JSR bot message receiver — decision logic in Dafny

The bot receives a chat message from the Bot Framework and answers
questions about Java Specification Requests (JSRs). `BotMessageReceiver`
does the deciding. It gates on the message's action. It asks LUIS for the
message's top intent and entities, then routes the intent to one of four
handlers:

- the JSR detail lookup;
- the keyword search;
- the English-to-Japanese translation of a JSR description;
- the help text.

Each handler pulls the entities it needs out of the LUIS response, calls
the lookup or search service, and sends zero or more chat replies.
`JSRResultJSONMapping` is the record those services return. Its identity
(`equals`/`hashCode`) is the record id alone.

This project models that logic as pure functions. The outside world is a
value of type `Env`, which gives:

- the LUIS answer for a text;
- the HTTP response for a URL;
- whether a translator token is available;
- the translation of a description.

Processing a message yields a `Run`. A run is an outcome plus a trace of
events, in order:

- LUIS calls;
- HTTP GETs;
- translator-token fetches and translator calls;
- replies.

The outcome is either normal completion or an abort with the Java
exception that escapes the background task. An abort keeps the events
that already happened before it.

Modules follow the program's structure:

| module | file | models |
|---|---|---|
| `JavaLang` | `java_lang.dfy` | `Integer.valueOf`/`parseInt` (ASCII and fullwidth digits, sign, the negative accumulation with its two overflow tests), decimal printing of `int`/`long`, `Long.hashCode` with explicit 64-bit XOR and truncation to `int` |
| `JavaStrings` | `java_strings.dfy` | `String.indexOf`, `startsWith`/`endsWith`, and `replaceAll` with a pattern free of regex metacharacters |
| `JsrResult` | `jsr_result.dfy` | `JSRResultJSONMapping`'s fields, `equals`, `hashCode` |
| `Http` | `http.dfy` | responses as status and body shape, `Family.familyOf`, `isRequestSuccess`, `readEntity` |
| `JsrNumber` | `jsr_number.dfy` | entity extraction and `getJSRNumber`, as written |
| `Trace` | `trace.dfy` | events, runs, the replies and LUIS calls of a trace |
| `BotMessageReceiver` | `bot_message_receiver.dfy` | the gate, the router, the four handlers, every reply text and URL |
| `ReceiverProperties` | `receiver_properties.dfy` | what the handlers send in each case, end to end |

How the code treats some inputs:

- The help text (`BotMessageReceiver.java:305-306`) suggests asking about
  "JSR 299" and "JSR 199". In `getJSRNumber`, both removal branches are
  guarded by `indexOf(...) > 0`. So a `"JSR"` or `"jar"` at index 0 never
  selects a branch. A literal such as `"JSR299"` takes the last branch, and
  `Integer.valueOf` rejects its leading `'J'` (`JsrNumber.LeadingJsrRejected`).
- A literal such as `"jsr199"` contains neither `"jar"` nor `"JSR"`. It also
  takes the last branch, whole, and `'j'` is not a digit
  (`JsrNumber.LowerCaseJsrRejected`).
- The first branch tests for `"jar"` but removes `"jsr"`. The `"jar"` always
  survives the removal, so that branch never yields a number
  (`JsrNumber.JarLiteralRejected`).
- A literal that does not start with `"JSR"` yields a number exactly when it
  is a numeral in the `int` range once every `"JSR"` is removed, as `"318"`
  and `"318JSR"` are (`JsrNumber.ParseJsrLiteral`).
- A rejected or missing literal aborts the handler with an exception, before
  any HTTP call and with no reply.
- A null description, name or id in a record shows up in the reply as the
  text `null` (`BotMessageReceiver.Str`, `BotMessageReceiver.LongStr`).
- Several other paths also end without any reply:
  - LUIS gives no answer;
  - the search response cannot be decoded as a record list;
  - the message has no keyword entity;
  - no translator token is available.

## Model

| member | source | states |
|---|---|---|
| JavaLang.NatToDecimal | src/main/java/com/yoshio3/BotMessageReceiver.java:174-175 | the decimal text of a number is non-empty, made of the ASCII digits `0`-`9` only, has no leading zero unless the number is 0, and reads back as the number |
| JavaLang.ToDecimal | src/main/java/com/yoshio3/BotMessageReceiver.java:174-175 | the text concatenation prints for an `int` or `long` is a numeral denoting that number: a leading `-` exactly when it is negative, never a `+`, then ASCII digits with no leading zero unless the number is 0 |
| JavaLang.ParseInt | src/main/java/com/yoshio3/BotMessageReceiver.java:289 | `Integer.valueOf` succeeds exactly when the text is an optional sign followed by one or more digits and the value it denotes lies in the `int` range; the result is that value |
| JavaLang.AccumulateValue | src/main/java/com/yoshio3/BotMessageReceiver.java:289 | the negative digit accumulation with the `multmin` and `limit` tests yields minus the digits' value, and fails exactly at a non-digit or when the value would pass the limit |
| JavaLang.ParseIntToDecimal | src/main/java/com/yoshio3/BotMessageReceiver.java:289 | every `int` printed in decimal parses back to itself |
| JavaLang.ParseIntRejectsForeignChar | src/main/java/com/yoshio3/BotMessageReceiver.java:289 | a literal containing a character that is neither an ASCII nor a fullwidth digit (other than a leading sign) raises `NumberFormatException` |
| JavaLang.LongHashCode | src/main/java/com/yoshio3/JSRResultJSONMapping.java:153 | `Long.hashCode` of a value in the `int` range is the value itself when non-negative and its bitwise complement `-1 - v` when negative |
| JavaStrings.IndexOf | src/main/java/com/yoshio3/BotMessageReceiver.java:284-286 | `indexOf` is -1 exactly when the pattern is absent, and otherwise the position of its first occurrence |
| JavaStrings.RemoveAll | src/main/java/com/yoshio3/BotMessageReceiver.java:285-287 | `replaceAll(pat, "")` never lengthens the string |
| JavaStrings.RemoveAllSinglePass | src/main/java/com/yoshio3/BotMessageReceiver.java:285-287 | removal is one left-to-right pass: `"jjsrsr"` loses one `"jsr"` and keeps the `"jsr"` the removal joins together |
| JavaStrings.RemoveAllSplits | src/main/java/com/yoshio3/BotMessageReceiver.java:285-287 | every occurrence the scan meets is removed, not just the first: after a stretch that cannot start the pattern, an occurrence is dropped and removal continues over the rest |
| JavaStrings.RemoveAllShrinks | src/main/java/com/yoshio3/BotMessageReceiver.java:285-287 | a string that contains the pattern loses at least one whole occurrence of it |
| JavaStrings.RemoveAllAbsent | src/main/java/com/yoshio3/BotMessageReceiver.java:285-287 | `replaceAll` of an absent pattern leaves the string unchanged |
| JavaStrings.RemoveAllKeepsOtherChars | src/main/java/com/yoshio3/BotMessageReceiver.java:285-287 | `replaceAll` keeps every occurrence of every character not in the pattern |
| JavaStrings.RemoveJsrKeepsJar | src/main/java/com/yoshio3/BotMessageReceiver.java:284-285 | removing every `"jsr"` from a string containing `"jar"` leaves a `"jar"` in it |
| JsrNumber.FirstOfType | src/main/java/com/yoshio3/BotMessageReceiver.java:277-280 | the lookup finds nothing exactly when no entity has the type; otherwise it yields the literal of the first entity of that type |
| JsrNumber.JsrNumberOf | src/main/java/com/yoshio3/BotMessageReceiver.java:275-292 | `NoSuchElementException` exactly when no `JSR_NUMBER` entity exists; otherwise the first such literal's parse, or `NumberFormatException` when it does not parse |
| JsrNumber.ParseJsrLiteral | src/main/java/com/yoshio3/BotMessageReceiver.java:284-290 | the three-branch parser rejects every literal starting with `"JSR"` and otherwise parses the literal with every `"JSR"` removed |
| JsrNumber.ParseJsrBranches | src/main/java/com/yoshio3/BotMessageReceiver.java:284-289 | a `"jar"` at index > 0 makes the parse fail whichever pattern is removed; a `"JSR"` at index > 0 means the literal does not start with it; with no `"JSR"` past index 0, a leading `"JSR"` fails to parse and otherwise there is nothing to remove |
| JsrNumber.LeadingJsrRejected | src/main/java/com/yoshio3/BotMessageReceiver.java:286-289 | a literal starting with `"JSR"` (such as `"JSR299"`) never yields a number |
| JsrNumber.JarLiteralRejected | src/main/java/com/yoshio3/BotMessageReceiver.java:284-285 | the `"jar"` branch never yields a number, because the `"jar"` survives the removal |
| JsrNumber.LowerCaseJsrRejected | src/main/java/com/yoshio3/BotMessageReceiver.java:284-289 | a literal starting with `"jsr"` (such as `"jsr199"`) never yields a number |
| JsrNumber.PlainNumeralAccepted | src/main/java/com/yoshio3/BotMessageReceiver.java:288-289 | a plain decimal literal yields its own value |
| JsrNumber.TrailingJsrStripped | src/main/java/com/yoshio3/BotMessageReceiver.java:286-287 | digits followed by `"JSR"` yield the number the digits spell |
| Http.FamilyOf | src/main/java/com/yoshio3/BotMessageReceiver.java:310-314 | a status falls in the informational, successful, redirection, client-error or server-error family exactly when it lies in 100-199, 200-299, 300-399, 400-499 or 500-599, and in no family otherwise |
| Http.IsRequestSuccess | src/main/java/com/yoshio3/BotMessageReceiver.java:310-314 | a response counts as a success exactly when its status is 200 to 299 |
| Http.ReadRecord | src/main/java/com/yoshio3/BotMessageReceiver.java:171-172 | reading a record succeeds exactly when the body is a record, giving that record, and otherwise raises `ProcessingException` |
| Http.ReadRecordList | src/main/java/com/yoshio3/BotMessageReceiver.java:209 | reading a record list succeeds exactly when the body is a list, giving its records in order, and otherwise raises `ProcessingException` |
| JsrResult.Equals | src/main/java/com/yoshio3/JSRResultJSONMapping.java:157-170 | a record equals another record exactly when their ids are equal or both null, whatever the other fields, and never equals null or an object of another class |
| JsrResult.HashCode | src/main/java/com/yoshio3/JSRResultJSONMapping.java:150-155 | a record with a null id hashes to 0; an id in the `int` range hashes to itself when non-negative and to `-1 - id` when negative |
| JsrResult.NullIdsAreEqual | src/main/java/com/yoshio3/JSRResultJSONMapping.java:168-169 | two records that both lack an id are equal |
| JsrResult.EqualsReflexiveNotNull | src/main/java/com/yoshio3/JSRResultJSONMapping.java:159-166 | a record equals itself, and never equals null or an object of another class |
| JsrResult.EqualsEquivalence | src/main/java/com/yoshio3/JSRResultJSONMapping.java:157-170 | record equality is symmetric and transitive |
| JsrResult.HashCodeConsistent | src/main/java/com/yoshio3/JSRResultJSONMapping.java:150-170 | equal records have equal hash codes |
| BotMessageReceiver.LookupUrl | src/main/java/com/yoshio3/BotMessageReceiver.java:268 | the lookup URL is the number-search entry point followed by text that parses back to the JSR number |
| BotMessageReceiver.SearchUrl | src/main/java/com/yoshio3/BotMessageReceiver.java:201 | the search URL is the keyword-search entry point followed by exactly the keyword |
| BotMessageReceiver.Str | src/main/java/com/yoshio3/BotMessageReceiver.java:174 | concatenation renders a null `String` field as the text "null" and any other as itself, so a null field and the text "null" look the same in a reply |
| BotMessageReceiver.LongStr | src/main/java/com/yoshio3/BotMessageReceiver.java:213 | concatenation renders a non-null `Long` id as a numeral denoting it and a null id as "null", which no numeral spells |
| BotMessageReceiver.LinkedReply | src/main/java/com/yoshio3/BotMessageReceiver.java:174-175 | the detail reply starts with "JSR ", the number and its caption (" の詳細は 「"; the translation reply at lines 251-252 uses " の日本語訳は 「"), quotes the description or translation whole between 「 and 」, and ends with the JCP detail link for the number |
| BotMessageReceiver.SummaryReply | src/main/java/com/yoshio3/BotMessageReceiver.java:210 | the count reply quotes the number of records found between 「 and 」 |
| BotMessageReceiver.RecordReply | src/main/java/com/yoshio3/BotMessageReceiver.java:213 | a record reply starts with `"JSR : "`, the record's id and 「, and quotes the record's name between 「 and 」 |
| BotMessageReceiver.RecordReplies | src/main/java/com/yoshio3/BotMessageReceiver.java:212-214 | one reply per found record, in list order, naming the record's id and name |
| BotMessageReceiver.ListingReplies | src/main/java/com/yoshio3/BotMessageReceiver.java:209-214 | the count summary comes first, then one reply per record in order |
| BotMessageReceiver.DetailHandler | src/main/java/com/yoshio3/BotMessageReceiver.java:165-181 | a missing or unparsable number aborts before anything happens; otherwise the first event is the GET of the lookup URL; the handler completes exactly when it sends one reply and aborts exactly when it sends none |
| BotMessageReceiver.AmbiguousHandler | src/main/java/com/yoshio3/BotMessageReceiver.java:192-225 | given a response to its GET, never aborts; does nothing exactly when no keyword entity exists; otherwise starts with the GET of the search URL for the keyword |
| BotMessageReceiver.TranslateDescription | src/main/java/com/yoshio3/BotMessageReceiver.java:244-253 | fetches a token first; with no token it sends nothing; with a token it translates the fetched description with that token and sends exactly the translation reply |
| BotMessageReceiver.TranslateHandler | src/main/java/com/yoshio3/BotMessageReceiver.java:236-259 | a missing or unparsable number aborts before anything happens; otherwise the first event is the lookup GET; at most one reply; an abort sends none |
| BotMessageReceiver.FallbackHandler | src/main/java/com/yoshio3/BotMessageReceiver.java:300-308 | sends exactly the help text, once |
| BotMessageReceiver.IntentOf | src/main/java/com/yoshio3/BotMessageReceiver.java:139-151 | each of the three known intent labels selects its own handler, and only that label does |
| BotMessageReceiver.Handle | src/main/java/com/yoshio3/BotMessageReceiver.java:139-151 | an unknown intent completes with exactly the help text; only the keyword search can send more than one reply, and it never aborts; no handler calls LUIS |
| BotMessageReceiver.InvokeLuisAndSendResponse | src/main/java/com/yoshio3/BotMessageReceiver.java:130-154 | LUIS is called exactly once, first; with no LUIS answer nothing else happens; otherwise the routed handler's run follows |
| BotMessageReceiver.InvokeService | src/main/java/com/yoshio3/BotMessageReceiver.java:100-120 | no action with a non-empty id goes to LUIS; an empty id does nothing; `"add"` sends only the welcome; any other action does nothing |
| ReceiverProperties.DetailReplies | src/main/java/com/yoshio3/BotMessageReceiver.java:167-180 | after a successful lookup the only reply is the detail text with the description and the JCP link; a wrong body shape aborts with `ProcessingException` and sends nothing; a failed lookup sends only the not-found text |
| ReceiverProperties.MissingNumberAborts | src/main/java/com/yoshio3/BotMessageReceiver.java:281 | without a `JSR_NUMBER` entity, detail and translation abort with `NoSuchElementException` before any call or reply |
| ReceiverProperties.DetailExample | src/main/java/com/yoshio3/BotMessageReceiver.java:174-175 | for the literal `"318"` and description "Enterprise Beans", the reply is the detail text for 318 with the JCP link for 318 |
| ReceiverProperties.AmbiguousListReplies | src/main/java/com/yoshio3/BotMessageReceiver.java:207-214 | a successful search with k records sends 1 + k replies: the count, then each record in order |
| ReceiverProperties.AmbiguousMalformedIsSilent | src/main/java/com/yoshio3/BotMessageReceiver.java:208-218 | a successful search whose body is not a record list sends nothing and completes normally |
| ReceiverProperties.AmbiguousFailureReply | src/main/java/com/yoshio3/BotMessageReceiver.java:219-223 | a failed search sends exactly the nothing-found text |
| ReceiverProperties.MissingKeywordIsSilent | src/main/java/com/yoshio3/BotMessageReceiver.java:194-198 | without a keyword entity the keyword search makes no call and sends nothing |
| ReceiverProperties.TranslateReplies | src/main/java/com/yoshio3/BotMessageReceiver.java:241-258 | after a successful lookup, with a token, the description is translated with that token and the only reply is the translation text; with no token nothing is sent; a wrong body shape aborts with `ProcessingException` and sends nothing; a failed lookup sends only the not-translated text |
| ReceiverProperties.UnknownIntentGetsHelp | src/main/java/com/yoshio3/BotMessageReceiver.java:149-150 | any other top intent gets exactly the help text after the LUIS call |
| ReceiverProperties.NoLuisAnswerIsSilent | src/main/java/com/yoshio3/BotMessageReceiver.java:133-135 | when LUIS gives no answer, no reply is sent |
| ReceiverProperties.AtMostOneReplyUnlessAmbiguous | src/main/java/com/yoshio3/BotMessageReceiver.java:139-152 | only the keyword search can send more than one reply |
| ReceiverProperties.GateRoutesToOneHandler | src/main/java/com/yoshio3/BotMessageReceiver.java:107-113 | a message without an action and with a non-empty id runs the LUIS call and then exactly the handler for the top intent |

## Left out

- `post` and the managed executor: the model is the background task itself. The `ACCEPTED` response and the scheduling are not modelled.
- HTTP client construction, URI syntax and JSON decoding. A response is a status plus a body that either has the requested shape or does not. `readEntity(String.class)` on an error body is assumed to succeed.
- Every HTTP GET is assumed to return a response. A `.get()` that throws `ProcessingException` (connection failure, timeout) at `BotMessageReceiver.java:202-205` and `269-271` is not modelled; it would end any handler with no reply.
- LUIS, the translator and the Bot Framework service are environment parameters. Their internals and failures are out of scope. Sending a reply, including its token fetch, is taken to succeed.
- Logging, the `Date` and `specLeads` fields, accessors, `toString` and `BotRESTApplication` are not modelled, because they do not affect any decision.
- Null references: the message id, entity types and literals, the top intent, the entity array and list elements are taken to be non-null. Their `NullPointerException` paths are not modelled.
- JavaLang.ParseInt: digits are ASCII `0`-`9` and fullwidth `０`-`９`. The other Unicode decimal digits that `Character.digit` accepts (Arabic-Indic, Devanagari and the rest) are not modelled, so the model rejects numerals in those scripts that Java accepts.
- JavaStrings.RemoveAll: its own contract states only that the string never grows. What is kept and what is removed is stated by the lemmas next to it: characters outside the pattern stay, an occurrence after a stretch that cannot start the pattern is removed and the scan continues, and a string that contains the pattern shrinks by at least its length. A multiset contract on the function itself is too costly to prove.
- JavaLang.LongHashCode: the value is stated only for the `int` range. For other values the function computes the XOR of the two 32-bit halves read as a signed `int`, but no value is stated.
- JsrResult.HashCode: the contract states the hash for a null id and for ids in the `int` range. For other ids the function computes `Long.hashCode` (the XOR of the two 32-bit halves), but no value is stated.
- `getJSRNumber` is evaluated twice per lookup in the source (once in the handler, once in `getJSRInfo`). It is deterministic, so the model evaluates it once.
- `findAny` in the keyword search is modelled as the first keyword entity, which is what a sequential stream returns.
- String positions are positions in a sequence of characters. UTF-16 surrogate pairs are not distinguished.
- Exceptions from the translator call and from string concatenation are not modelled.

=== FILE: bot_message_receiver.dfy ===
/**
 * The decision logic of `BotMessageReceiver`: the action gate of
 * `invokeService`, the intent switch of `invokeLUISAndSendResponse`, and the
 * three intent handlers plus the fallback. Every external collaborator (LUIS,
 * the lookup and search services, the translator and its token service) is
 * an input value in `Env`; every effect is an event of the returned trace.
 */
module BotMessageReceiver {
  import opened JavaLang
  import opened JavaStrings
  import opened JsrResult
  import opened Http
  import opened JsrNumber
  import opened Trace

  /** The part of a LUIS answer the bot reads. */
  datatype LuisResponse = LuisResponse(topIntent: string, entities: seq<Entity>)

  /** An inbound message: conversation id, the user's text, and the platform's action tag (null when absent). */
  datatype Message = Message(id: string, text: string, action: Option<string>)

  /**
   * The answers of the external services. Every GET returns a response: a
   * connection failure that makes `get()` throw is not represented.
   */
  datatype Env = Env(
    luis: string -> Option<LuisResponse>,                   // LUIS's answer for a text, if any
    get: string -> HttpResponse,                            // the response to a GET of a URL
    translatorToken: Option<string>,                        // the translator's access token, if one is issued
    translate: (Option<string>, string) -> Option<string>)  // the translation of a text with a token

  const LOOKUP_ENTRYPOINT: string :=
    "http://jsr-confim-msa.52.175.149.226.nip.io/JSR-Confirm-Service-MSA-1.0-SNAPSHOT/rest/jsr/"
  const SEARCH_ENTRYPOINT: string :=
    "http://jsr-confim-msa.52.175.149.226.nip.io/JSR-Confirm-Service-MSA-1.0-SNAPSHOT/rest/jsr/search?name="
  const DETAIL_PAGE: string := "https://jcp.org/en/jsr/detail?id="

  const DETAIL_INTENT: string := "JSR 番号の詳細"
  const AMBIGUOUS_INTENT: string := "JSRあいまい検索"
  const TRANSLATE_INTENT: string := "JSR-Translate"

  const WELCOME: string := "Welcome to My SkypeBot"
  const NOT_FOUND: string := "対象の JSR は見つかりませんでした"
  const NOTHING_FOUND: string := "お探しの項目では見つかりませんでした"
  const NOT_TRANSLATED: string := "対象の JSR を翻訳できませんでした"
  const HELP: string :=
    "もう一度ご入力ください。<BR/>" + "例：<BR/>" + "Servlet は何に含まれますか？入りますか？<BR/>"
    + "JSR 299 は何ですか？<BR/>" + "JSR 199 を翻訳してください<BR/>"

  // ---------------------------------------------------------------------------
  // Reply texts and URLs
  // ---------------------------------------------------------------------------

  /**
   * How string concatenation renders a possibly null `String`: a null
   * reference becomes the four characters `null`, so in a reply it cannot be
   * told apart from the text "null".
   */
  function Str(s: Option<string>): (r: string)
    ensures s.Some? ==> r == s.value
    ensures s.None? ==> r == "null"
    ensures r == "null" <==> s.None? || s.value == "null"
  {
    if s.Some? then s.value else "null"
  }

  /**
   * How string concatenation renders a possibly null `Long`: the decimal
   * numeral of the value, or `null`, which no numeral spells.
   */
  function LongStr(n: Option<Int64>): (r: string)
    ensures n.Some? ==> IsNumeral(r) && NumeralValue(r) == n.value
    ensures n.None? ==> r == "null"
    ensures r == "null" <==> n.None?
  {
    if n.Some? then
      ToDecimal(n.value)
    else "null"
  }

  /** `x` appears whole in `s`, directly between the brackets 「 and 」. */
  predicate Quoted(s: string, x: string) {
    exists i :: && 0 < i && i + |x| < |s|
                && OccursAt(s, x, i)
                && s[i - 1] == '「' && s[i + |x|] == '」'
  }

  /** Text placed between a head ending in 「 and a tail starting with 」 is quoted by them. */
  lemma QuotedBetween(head: string, x: string, tail: string)
    requires |head| > 0 && head[|head| - 1] == '「'
    requires |tail| > 0 && tail[0] == '」'
    ensures Quoted(head + x + tail, x)
    ensures StartsWith(head + x + tail, head)
  {
    var s := head + x + tail;
    var i := |head|;
    assert s[..i] == head;
    assert s[i..i + |x|] == x;
    assert s[i - 1] == head[i - 1];
    assert s[i + |x|] == tail[0];
    assert OccursAt(s, x, i);
  }

  /** The lookup URL (`getJSRInfo`): the entry point, then the number, which reads back as itself. */
  function LookupUrl(n: Int32): (url: string)
    ensures StartsWith(url, LOOKUP_ENTRYPOINT)
    ensures ParseInt(url[|LOOKUP_ENTRYPOINT|..]) == Some(n)
  {
    var url := LOOKUP_ENTRYPOINT + ToDecimal(n);
    assert url[..|LOOKUP_ENTRYPOINT|] == LOOKUP_ENTRYPOINT;
    assert url[|LOOKUP_ENTRYPOINT|..] == ToDecimal(n);
    url
  }

  /** The search URL: the entry point, then the keyword unchanged (no encoding). */
  function SearchUrl(keyword: string): (url: string)
    ensures StartsWith(url, SEARCH_ENTRYPOINT)
    ensures url[|SEARCH_ENTRYPOINT|..] == keyword
  {
    var url := SEARCH_ENTRYPOINT + keyword;
    assert url[..|SEARCH_ENTRYPOINT|] == SEARCH_ENTRYPOINT;
    url
  }

  /** What follows "JSR n" in the detail reply and in the translation reply. */
  const DETAIL_CAPTION: string := " の詳細は 「"
  const TRANSLATION_CAPTION: string := " の日本語訳は 「"

  /**
   * The reply of a successful lookup or translation: "JSR n", the caption, the
   * text in brackets, then the JCP page of the number.
   */
  function LinkedReply(n: Int32, caption: string, text: string): (reply: string)
    requires |caption| > 0 && caption[|caption| - 1] == '「'
    ensures StartsWith(reply, "JSR " + ToDecimal(n) + caption)
    ensures Quoted(reply, text)
    ensures EndsWith(reply, DETAIL_PAGE + ToDecimal(n))
  {
    var lead := "JSR " + ToDecimal(n);
    var link := DETAIL_PAGE + ToDecimal(n);
    ReplyShape(lead, caption, text, "」 です。<BR>", link);
    lead + caption + text + ("」 です。<BR>" + link)
  }

  /**
   * The shape of a linked reply, whatever its pieces: it starts with its lead
   * and caption, quotes its text, and ends with its link.
   */
  lemma ReplyShape(lead: string, caption: string, text: string, close: string, link: string)
    requires |caption| > 0 && caption[|caption| - 1] == '「'
    requires |close| > 0 && close[0] == '」'
    ensures var s := lead + caption + text + (close + link);
            StartsWith(s, lead + caption) && Quoted(s, text) && EndsWith(s, link)
  {
    var head := lead + caption;
    var s := head + text + (close + link);
    assert head[|head| - 1] == caption[|caption| - 1];
    assert (close + link)[0] == close[0];
    QuotedBetween(head, text, close + link);
    assert s[..|head|] == head;
    assert s[|s| - |link|..] == link;
  }

  /** The detail reply: the description in brackets. */
  function DetailReply(n: Int32, description: Option<string>): string {
    LinkedReply(n, DETAIL_CAPTION, Str(description))
  }

  /** The translation reply: the translation in brackets. */
  function TranslationReply(n: Int32, translated: Option<string>): string {
    LinkedReply(n, TRANSLATION_CAPTION, Str(translated))
  }

  /** The first reply of a successful search: the number of records found, in brackets. */
  function SummaryReply(count: nat): (reply: string)
    ensures Quoted(reply, ToDecimal(count))
  {
    var head := "お探しの JSR は" + "「";
    QuotedBetween(head, ToDecimal(count), "」 ありました。");
    head + ToDecimal(count) + "」 ありました。"
  }

  /** The reply for one found record: its id, then its name in brackets. */
  function RecordReply(record: JsrRecord): (reply: string)
    ensures StartsWith(reply, "JSR : " + LongStr(record.id) + "「")
    ensures Quoted(reply, Str(record.nameOfJsr))
  {
    var head := "JSR : " + LongStr(record.id) + "「";
    QuotedBetween(head, Str(record.nameOfJsr), "」 がみつかりました。");
    head + Str(record.nameOfJsr) + "」 がみつかりました。"
  }

  /** One reply per record, in the order the search service listed them. */
  function RecordReplies(records: seq<JsrRecord>): (messages: seq<string>)
    ensures |messages| == |records|
    ensures forall i :: 0 <= i < |records| ==> messages[i] == RecordReply(records[i])
  {
    if |records| == 0 then []
    else [RecordReply(records[0])] + RecordReplies(records[1..])
  }

  /**
   * What a successful search sends: the number of records found, then one
   * reply per record, in list order.
   */
  function ListingReplies(records: seq<JsrRecord>): (messages: seq<string>)
    ensures |messages| == 1 + |records|
    ensures messages[0] == SummaryReply(|records|)
    ensures forall i :: 0 <= i < |records| ==> messages[i + 1] == RecordReply(records[i])
  {
    var rest := RecordReplies(records);
    var messages := [SummaryReply(|records|)] + rest;
    assert forall i :: 0 <= i < |records| ==> messages[i + 1] == rest[i];
    messages
  }

  // ---------------------------------------------------------------------------
  // Handlers
  // ---------------------------------------------------------------------------

  /**
   * `execForJSRSearch`: extract the number, look it up, and reply with its
   * description and detail page, or with "not found" when the lookup is not
   * 2xx. A missing or unparsable number aborts before the lookup; a 2xx body
   * that is not a record aborts after it.
   */
  function DetailHandler(env: Env, entities: seq<Entity>): (r: Run)
    ensures JsrNumberOf(entities).Err? ==> r == Run(Abort(JsrNumberOf(entities).error), [])
    ensures JsrNumberOf(entities).Ok? ==>
              |r.trace| > 0 && r.trace[0] == HttpGet(LookupUrl(JsrNumberOf(entities).value))
    ensures r.outcome.Done? <==> |Replies(r.trace)| == 1
    ensures r.outcome.Abort? <==> Replies(r.trace) == []
    ensures LuisCalls(r.trace) == 0
  {
    match JsrNumberOf(entities)
    case Err(e) => Run(Abort(e), [])
    case Ok(n) =>
      var lookup := [HttpGet(LookupUrl(n))];
      var response := env.get(LookupUrl(n));
      OneEvent(HttpGet(LookupUrl(n)));
      if IsRequestSuccess(response) then
        match ReadRecord(response)
        case Err(e) => Run(Abort(e), lookup)
        case Ok(record) =>
          var reply := Reply(DetailReply(n, record.description));
          OneEvent(reply);
          RepliesAppend(lookup, [reply]);
          Run(Done, lookup + [reply])
      else
        OneEvent(Reply(NOT_FOUND));
        RepliesAppend(lookup, [Reply(NOT_FOUND)]);
        Run(Done, lookup + [Reply(NOT_FOUND)])
  }

  /**
   * `execForAmbiguousSearch`: search by the keyword entity and reply with the
   * count, then one message per record. A body that is not a list of records
   * is caught and only logged; no keyword entity means no search and no reply.
   */
  function AmbiguousHandler(env: Env, entities: seq<Entity>): (r: Run)
    ensures r.outcome == Done
    ensures FirstOfType(entities, KEYWORD_TYPE).None? <==> r.trace == []
    ensures FirstOfType(entities, KEYWORD_TYPE).Some? ==>
              r.trace[0] == HttpGet(SearchUrl(FirstOfType(entities, KEYWORD_TYPE).value))
    ensures LuisCalls(r.trace) == 0
  {
    match FirstOfType(entities, KEYWORD_TYPE)
    case None => Run(Done, [])
    case Some(keyword) =>
      var search := [HttpGet(SearchUrl(keyword))];
      var response := env.get(SearchUrl(keyword));
      OneEvent(HttpGet(SearchUrl(keyword)));
      if IsRequestSuccess(response) then
        match ReadRecordList(response)
        case Err(_) => Run(Done, search)
        case Ok(records) =>
          var replies := Sends(ListingReplies(records));
          SendsReplies(ListingReplies(records));
          RepliesAppend(search, replies);
          Run(Done, search + replies)
      else
        OneEvent(Reply(NOTHING_FOUND));
        RepliesAppend(search, [Reply(NOTHING_FOUND)]);
        Run(Done, search + [Reply(NOTHING_FOUND)])
  }

  /**
   * The part of `translateEnglish` after a successful lookup: fetch a
   * translator token and, only when one is issued, translate the description
   * and reply with the translation.
   */
  function TranslateDescription(env: Env, n: Int32, description: Option<string>): (trace: seq<Event>)
    ensures |trace| > 0 && trace[0] == FetchTranslatorToken
    ensures env.translatorToken.None? ==> Replies(trace) == []
    ensures env.translatorToken.Some? ==>
              Replies(trace) == [TranslationReply(n, env.translate(description, env.translatorToken.value))]
    ensures forall i :: 0 <= i < |trace| && trace[i].CallTranslator? ==>
              env.translatorToken.Some? && trace[i] == CallTranslator(description, env.translatorToken.value)
    ensures LuisCalls(trace) == 0
  {
    OneEvent(FetchTranslatorToken);
    match env.translatorToken
    case None => [FetchTranslatorToken]
    case Some(token) =>
      var message := TranslationReply(n, env.translate(description, token));
      var trace := [FetchTranslatorToken, CallTranslator(description, token), Reply(message)];
      SilentThenReply(FetchTranslatorToken, CallTranslator(description, token), message);
      trace
  }

  /**
   * `translateEnglish`: look the number up as the detail handler does, then
   * translate the description; reply "could not translate" when the lookup
   * is not 2xx.
   */
  function TranslateHandler(env: Env, entities: seq<Entity>): (r: Run)
    ensures JsrNumberOf(entities).Err? ==> r == Run(Abort(JsrNumberOf(entities).error), [])
    ensures JsrNumberOf(entities).Ok? ==>
              |r.trace| > 0 && r.trace[0] == HttpGet(LookupUrl(JsrNumberOf(entities).value))
    ensures |Replies(r.trace)| <= 1
    ensures r.outcome.Abort? ==> Replies(r.trace) == []
    ensures LuisCalls(r.trace) == 0
  {
    match JsrNumberOf(entities)
    case Err(e) => Run(Abort(e), [])
    case Ok(n) =>
      var lookup := [HttpGet(LookupUrl(n))];
      var response := env.get(LookupUrl(n));
      OneEvent(HttpGet(LookupUrl(n)));
      if IsRequestSuccess(response) then
        match ReadRecord(response)
        case Err(e) => Run(Abort(e), lookup)
        case Ok(record) =>
          var translation := TranslateDescription(env, n, record.description);
          RepliesAppend(lookup, translation);
          Run(Done, lookup + translation)
      else
        OneEvent(Reply(NOT_TRANSLATED));
        RepliesAppend(lookup, [Reply(NOT_TRANSLATED)]);
        Run(Done, lookup + [Reply(NOT_TRANSLATED)])
  }

  /** `execActionForNothing`: the fixed help text, and nothing else. */
  function FallbackHandler(): (r: Run)
    ensures r.outcome == Done && Replies(r.trace) == [HELP] && LuisCalls(r.trace) == 0
  {
    OneEvent(Reply(HELP));
    Run(Done, [Reply(HELP)])
  }

  // ---------------------------------------------------------------------------
  // Routing and the action gate
  // ---------------------------------------------------------------------------

  /** The intents the switch knows, plus every other label. */
  datatype Intent = DetailIntent | AmbiguousIntent | TranslateIntent | UnknownIntent

  /** The `switch (topIntent)`: an exact, case-sensitive match on three labels. */
  function IntentOf(topIntent: string): (intent: Intent)
    ensures intent == DetailIntent <==> topIntent == DETAIL_INTENT
    ensures intent == AmbiguousIntent <==> topIntent == AMBIGUOUS_INTENT
    ensures intent == TranslateIntent <==> topIntent == TRANSLATE_INTENT
  {
    if topIntent == DETAIL_INTENT then DetailIntent
    else if topIntent == AMBIGUOUS_INTENT then AmbiguousIntent
    else if topIntent == TRANSLATE_INTENT then TranslateIntent
    else UnknownIntent
  }

  /** The one handler an intent selects. */
  function Handle(env: Env, intent: Intent, entities: seq<Entity>): (r: Run)
    ensures intent == UnknownIntent ==> r.outcome == Done && Replies(r.trace) == [HELP]
    ensures intent != AmbiguousIntent ==> |Replies(r.trace)| <= 1
    ensures intent == AmbiguousIntent ==> r.outcome == Done
    ensures LuisCalls(r.trace) == 0
  {
    match intent
    case DetailIntent => DetailHandler(env, entities)
    case AmbiguousIntent => AmbiguousHandler(env, entities)
    case TranslateIntent => TranslateHandler(env, entities)
    case UnknownIntent => FallbackHandler()
  }

  /**
   * `invokeLUISAndSendResponse`: ask LUIS once; with no answer do nothing
   * more, otherwise run the handler the top intent selects.
   */
  function InvokeLuisAndSendResponse(env: Env, text: string): (r: Run)
    ensures |r.trace| > 0 && r.trace[0] == CallLuis(text) && LuisCalls(r.trace) == 1
    ensures env.luis(text).None? ==> r == Run(Done, [CallLuis(text)])
    ensures env.luis(text).Some? ==>
              var luis := env.luis(text).value;
              r == Run(Handle(env, IntentOf(luis.topIntent), luis.entities).outcome,
                       [CallLuis(text)] + Handle(env, IntentOf(luis.topIntent), luis.entities).trace)
  {
    OneEvent(CallLuis(text));
    match env.luis(text)
    case None => Run(Done, [CallLuis(text)])
    case Some(luis) =>
      var handled := Handle(env, IntentOf(luis.topIntent), luis.entities);
      RepliesAppend([CallLuis(text)], handled.trace);
      Run(handled.outcome, [CallLuis(text)] + handled.trace)
  }

  /**
   * `invokeService`: with no action, a message with a non-empty id goes to
   * LUIS; the action "add" gets the welcome message; any other action, and a
   * message with an empty id, is dropped without a reply.
   */
  function InvokeService(env: Env, message: Message): (r: Run)
    ensures message.action.None? && message.id != "" ==>
              LuisCalls(r.trace) == 1 && r.trace[0] == CallLuis(message.text)
    ensures message.action.None? && message.id == "" ==> r == Run(Done, [])
    ensures message.action == Some("add") ==> r == Run(Done, [Reply(WELCOME)])
    ensures message.action.Some? && message.action.value != "add" ==> r == Run(Done, [])
    ensures LuisCalls(r.trace) <= 1
  {
    match message.action
    case None =>
      if message.id != "" then InvokeLuisAndSendResponse(env, message.text)
      else Run(Done, [])
    case Some(action) =>
      if action == "add" then
        OneEvent(Reply(WELCOME));
        Run(Done, [Reply(WELCOME)])
      else Run(Done, [])
  }
}

=== FILE: http.dfy ===
/**
 * The HTTP responses of the lookup and search services, as abstract values:
 * a status code and a body that the JSON binding can or cannot read as the
 * requested type. How the response was fetched is not modelled.
 */
module Http {
  import opened JavaLang
  import opened JsrResult

  /** What the JSON binding makes of a response body. */
  datatype Body =
    | RecordJson(record: JsrRecord)           // a JSON object of the record's shape
    | RecordListJson(records: seq<JsrRecord>) // a JSON array of such objects
    | Text(raw: string)                       // anything else: an error page, plain text

  datatype HttpResponse = HttpResponse(status: Int32, body: Body)

  /** `Response.Status.Family`. */
  datatype Family = Informational | Successful | Redirection | ClientError | ServerError | Other

  /** `Family.familyOf(status)`: the hundreds digit of the status code picks the family. */
  function FamilyOf(status: Int32): (f: Family)
    ensures f == Informational <==> 100 <= status <= 199
    ensures f == Successful <==> 200 <= status <= 299
    ensures f == Redirection <==> 300 <= status <= 399
    ensures f == ClientError <==> 400 <= status <= 499
    ensures f == ServerError <==> 500 <= status <= 599
    ensures f == Other <==> status < 100 || 600 <= status
  {
    var hundreds := JavaDiv(status, 100);
    if hundreds == 1 then Informational
    else if hundreds == 2 then Successful
    else if hundreds == 3 then Redirection
    else if hundreds == 4 then ClientError
    else if hundreds == 5 then ServerError
    else Other
  }

  /**
   * `isRequestSuccess`: the status family is SUCCESSFUL, which holds for the
   * 2xx codes and no others (negative codes included).
   */
  function IsRequestSuccess(response: HttpResponse): (ok: bool)
    ensures ok <==> 200 <= response.status <= 299
  {
    FamilyOf(response.status) == Successful
  }

  /** `readEntity(JSRResultJSONMapping.class)`: only a record-shaped body can be read. */
  function ReadRecord(response: HttpResponse): (r: Result<JsrRecord>)
    ensures r.Ok? <==> response.body.RecordJson?
    ensures r.Ok? ==> r.value == response.body.record
    ensures r.Err? ==> r.error == ProcessingException
  {
    match response.body
    case RecordJson(record) => Ok(record)
    case _ => Err(ProcessingException)
  }

  /** `readEntity(new GenericType<List<JSRResultJSONMapping>>() {})`: only an array of records can be read. */
  function ReadRecordList(response: HttpResponse): (r: Result<seq<JsrRecord>>)
    ensures r.Ok? <==> response.body.RecordListJson?
    ensures r.Ok? ==> r.value == response.body.records
    ensures r.Err? ==> r.error == ProcessingException
  {
    match response.body
    case RecordListJson(records) => Ok(records)
    case _ => Err(ProcessingException)
  }
}

=== FILE: java_lang.dfy ===
/**
 * The slice of the Java platform the bot's decision logic leans on, as pure
 * functions: nullable references, thrown exceptions, the `int`/`long` ranges,
 * `Integer.valueOf(String)` (decimal parsing), decimal rendering of numbers in
 * string concatenation, and `Long.hashCode`.
 */
module JavaLang {

  /** A Java reference that may be `null`, or a `java.util.Optional`. */
  datatype Option<+T> = None | Some(value: T)

  /** The unchecked exceptions the modelled code can let escape. */
  datatype JavaException =
    | NoSuchElementException   // Optional.get() on an empty Optional
    | NumberFormatException    // Integer.valueOf on a string that is no int numeral
    | ProcessingException      // Response.readEntity on a body of the wrong shape

  /** A value returned normally, or an exception thrown instead. */
  datatype Result<+T> = Ok(value: T) | Err(error: JavaException)

  const INT_MIN: int := -0x8000_0000
  const INT_MAX: int := 0x7FFF_FFFF
  const LONG_MIN: int := -0x8000_0000_0000_0000
  const LONG_MAX: int := 0x7FFF_FFFF_FFFF_FFFF

  /** Java `int` / `Integer` values. */
  type Int32 = x: int | INT_MIN <= x <= INT_MAX

  /** Java `long` / `Long` values. */
  type Int64 = x: int | LONG_MIN <= x <= LONG_MAX

  // ---------------------------------------------------------------------------
  // Decimal numerals
  // ---------------------------------------------------------------------------

  /**
   * `Character.digit(c, 10) >= 0` for the digits the bot can meet: the ASCII
   * digits and the fullwidth digits U+FF10..U+FF19 of Japanese text input.
   */
  predicate IsDigit(c: char) {
    '0' <= c <= '9' || '\U{FF10}' <= c <= '\U{FF19}'
  }

  /** `Character.digit(c, 10)` for a digit. */
  function DigitValue(c: char): (d: nat)
    requires IsDigit(c)
    ensures d < 10
  {
    if c <= '9' then (c as int) - ('0' as int) else (c as int) - ('\U{FF10}' as int)
  }

  /** The digit Java prints: `'0'` to `'9'`, never a fullwidth one. */
  function DigitChar(d: nat): (c: char)
    requires d < 10
    ensures '0' <= c <= '9'
    ensures IsDigit(c) && DigitValue(c) == d
  {
    (('0' as int) + d) as char
  }

  predicate AllDigits(s: string) {
    forall i :: 0 <= i < |s| ==> IsDigit(s[i])
  }

  /** Every character is one of the ASCII digits `'0'` to `'9'`. */
  predicate AsciiDigits(s: string) {
    forall i :: 0 <= i < |s| ==> '0' <= s[i] <= '9'
  }

  /** The value of a decimal numeral, most significant digit first. */
  function DigitsValue(s: string): nat
    requires AllDigits(s)
    decreases |s|
  {
    if |s| == 0 then 0 else 10 * DigitsValue(s[..|s| - 1]) + DigitValue(s[|s| - 1])
  }

  /**
   * The decimal numeral of a non-negative number, as `Integer.toString` and
   * `Long.toString` print it: ASCII digits only, no leading zero, and reading
   * it back gives the number.
   */
  function NatToDecimal(n: nat): (s: string)
    ensures |s| > 0 && AllDigits(s) && AsciiDigits(s)
    ensures DigitsValue(s) == n
    ensures s[0] == '0' ==> n == 0
    decreases n
  {
    if n < 10 then [DigitChar(n)]
    else
      var prefix := NatToDecimal(n / 10);
      var s := prefix + [DigitChar(n % 10)];
      assert s[..|s| - 1] == prefix;
      s
  }

  /** A decimal numeral: an optional `-` or `+`, then one or more digits and nothing else. */
  predicate IsNumeral(s: string) {
    if |s| > 0 && (s[0] == '-' || s[0] == '+') then |s| > 1 && AllDigits(s[1..])
    else |s| > 0 && AllDigits(s)
  }

  /** The signed value a numeral denotes. */
  function NumeralValue(s: string): int
    requires IsNumeral(s)
  {
    if s[0] == '-' then -(DigitsValue(s[1..]) as int)
    else if s[0] == '+' then DigitsValue(s[1..])
    else DigitsValue(s)
  }

  /**
   * How string concatenation renders an `int` or a `long`
   * (`"JSR " + jsrNumber`): a minus sign for negative values, then the
   * decimal numeral of the magnitude, in ASCII digits with no leading zero.
   */
  function ToDecimal(n: int): (s: string)
    ensures IsNumeral(s) && NumeralValue(s) == n
    ensures s[0] != '+' && (s[0] == '-' <==> n < 0)
    ensures var d := if n < 0 then s[1..] else s;
            |d| > 0 && AsciiDigits(d) && (d[0] == '0' ==> n == 0)
  {
    if n < 0 then
      var digits := NatToDecimal(-n);
      assert ("-" + digits)[1..] == digits;
      "-" + digits
    else NatToDecimal(n)
  }

  /** Java's `int` division, which truncates toward zero. */
  function JavaDiv(a: int, b: int): int
    requires b > 0
  {
    if a >= 0 then a / b else -((-a) / b)
  }

  /**
   * The digit loop of `Integer.parseInt(s, 10)`: the value so far is kept
   * negated in `result`. Before each step `result < multmin` or
   * `result * 10 < limit + digit` means the next value would pass `limit`,
   * and parsing fails; so does any character that is not a digit.
   */
  function Accumulate(s: string, i: nat, result: int, limit: int, multmin: int): Option<int>
    requires i <= |s|
    decreases |s| - i
  {
    if i == |s| then Some(result)
    else if !IsDigit(s[i]) then None
    else
      var digit := DigitValue(s[i]);
      if result < multmin then None
      else if result * 10 < limit + digit then None
      else Accumulate(s, i + 1, result * 10 - digit, limit, multmin)
  }

  /**
   * `Integer.valueOf(String)` / `Integer.parseInt(s, 10)`: a first character
   * below `'0'` must be a sign followed by more; the limit is `INT_MIN` for a
   * negative numeral and `-INT_MAX` otherwise; the digits are accumulated
   * negatively. Failure is the `NumberFormatException`, modelled as `None`.
   * It accepts exactly the numerals whose value fits in an `int`.
   */
  function ParseInt(s: string): (r: Option<Int32>)
    ensures r.Some? <==> IsNumeral(s) && INT_MIN <= NumeralValue(s) <= INT_MAX
    ensures r.Some? ==> r.value == NumeralValue(s)
  {
    if |s| == 0 then None
    else if s[0] < '0' && s[0] != '-' && s[0] != '+' then None
    else if s[0] < '0' && |s| == 1 then None
    else
      var negative := s[0] == '-';
      var limit := if negative then INT_MIN else -INT_MAX;
      var start := if s[0] < '0' then 1 else 0;
      assert s[start..start] == [];
      assert start == 0 ==> s[start..] == s;
      AccumulateValue(s, start, start, limit);
      match Accumulate(s, start, 0, limit, JavaDiv(limit, 10))
      case None => None
      case Some(result) => if negative then Some(result) else Some(-result)
  }

  /**
   * The digit loop computes the negated value of the digits from `start`,
   * and fails exactly when a character is not a digit or the value passes
   * `-limit`.
   */
  lemma {:induction false} AccumulateValue(s: string, start: nat, i: nat, limit: int)
    requires start <= i <= |s|
    requires limit == INT_MIN || limit == -INT_MAX
    requires AllDigits(s[start..i]) && DigitsValue(s[start..i]) <= -limit
    ensures var r := Accumulate(s, i, -(DigitsValue(s[start..i]) as int), limit, JavaDiv(limit, 10));
            && (r.Some? <==> AllDigits(s[start..]) && DigitsValue(s[start..]) <= -limit)
            && (r.Some? ==> r.value == -(DigitsValue(s[start..]) as int))
    decreases |s| - i
  {
    if i == |s| {
      assert s[start..i] == s[start..];
    } else {
      var v := DigitsValue(s[start..i]);
      if !IsDigit(s[i]) {
        assert s[start..][i - start] == s[i];
      } else {
        var d := DigitValue(s[i]);
        DigitsExtend(s, start, i);
        OverflowTests(v, d, limit);
        if 10 * v + d > -limit {
          if AllDigits(s[start..]) {
            assert s[start..][..i + 1 - start] == s[start..i + 1];
            DigitsValuePrefix(s[start..], i + 1 - start);
          }
        } else {
          AccumulateValue(s, start, i + 1, limit);
        }
      }
    }
  }

  /** One more digit: the numeral grows by one place. */
  lemma DigitsExtend(s: string, start: nat, i: nat)
    requires start <= i < |s| && IsDigit(s[i]) && AllDigits(s[start..i])
    ensures AllDigits(s[start..i + 1])
    ensures DigitsValue(s[start..i + 1]) == 10 * DigitsValue(s[start..i]) + DigitValue(s[i])
  {
    var next := s[start..i + 1];
    assert next[..|next| - 1] == s[start..i];
    assert forall k :: 0 <= k < |next| - 1 ==> next[k] == s[start..i][k];
  }

  /**
   * The two overflow tests of the digit loop together fail exactly when the
   * next value `10 * v + d` passes `-limit`.
   */
  lemma OverflowTests(v: int, d: nat, limit: int)
    requires 0 <= v <= -limit && d < 10
    requires limit == INT_MIN || limit == -INT_MAX
    ensures (-v < JavaDiv(limit, 10) || -v * 10 < limit + d) <==> 10 * v + d > -limit
  {
  }

  /** Dropping trailing digits never increases a numeral's value. */
  lemma {:induction false} DigitsValuePrefix(s: string, k: nat)
    requires AllDigits(s) && k <= |s|
    ensures AllDigits(s[..k]) && DigitsValue(s[..k]) <= DigitsValue(s)
    decreases |s|
  {
    if k == |s| {
      assert s[..k] == s;
    } else {
      var p := s[..|s| - 1];
      assert p[..k] == s[..k];
      DigitsValuePrefix(p, k);
    }
  }

  /** Parsing what concatenation printed gives the number back. */
  lemma ParseIntToDecimal(n: Int32)
    ensures ParseInt(ToDecimal(n)) == Some(n)
  {
  }

  /**
   * A character that is neither a digit nor a leading sign makes parsing
   * fail: a letter such as the `'J'` of `"JSR"`, or a sign after the start.
   */
  lemma ParseIntRejectsForeignChar(s: string, i: int)
    requires 0 <= i < |s|
    requires !IsDigit(s[i])
    requires i > 0 || (s[i] != '-' && s[i] != '+')
    ensures ParseInt(s) == None
  {
  }

  // ---------------------------------------------------------------------------
  // Long.hashCode
  // ---------------------------------------------------------------------------

  function Pow2(k: nat): (p: nat)
    ensures p >= 1
  {
    if k == 0 then 1 else 2 * Pow2(k - 1)
  }

  /** The low `width` bits of `a XOR b`, for non-negative `a` and `b`. */
  function Xor(a: nat, b: nat, width: nat): (x: nat)
    ensures x < Pow2(width)
  {
    if width == 0 then 0
    else (a % 2 + b % 2) % 2 + 2 * Xor(a / 2, b / 2, width - 1)
  }

  lemma {:induction false} Pow2Add(a: nat, b: nat)
    ensures Pow2(a + b) == Pow2(a) * Pow2(b)
    decreases a
  {
    if a > 0 {
      Pow2Add(a - 1, b);
    }
  }

  lemma Pow2Of32()
    ensures Pow2(32) == 0x1_0000_0000
  {
    assert Pow2(2) == 4;
    Pow2Add(2, 2);
    Pow2Add(4, 4);
    Pow2Add(8, 8);
    Pow2Add(16, 16);
  }

  /** XOR with zero keeps a number that fits in the width. */
  lemma {:induction false} XorZero(a: nat, width: nat)
    requires a < Pow2(width)
    ensures Xor(a, 0, width) == a
    decreases width
  {
    if width > 0 {
      XorZero(a / 2, width - 1);
    }
  }

  /** One step of `Xor`: the lowest bit, then the rest shifted down. */
  lemma XorStep(a: nat, b: nat, width: nat)
    requires width > 0
    ensures Xor(a, b, width) == (a % 2 + b % 2) % 2 + 2 * Xor(a / 2, b / 2, width - 1)
  {
  }

  /** XOR with all ones (`ones` is 2^width - 1) flips every bit within the width. */
  lemma {:induction false} XorOnes(a: nat, ones: nat, width: nat)
    requires ones + 1 == Pow2(width) && a <= ones
    ensures Xor(a, ones, width) == ones - a
    decreases width
  {
    if width > 0 {
      var q, bit := a / 2, a % 2;
      var h := ones / 2;
      assert a == 2 * q + bit;
      assert ones == 2 * h + 1 && h + 1 == Pow2(width - 1);
      XorOnes(q, h, width - 1);
      XorStep(a, ones, width);
    }
  }

  /**
   * `Long.hashCode(value)`: `(int)(value ^ (value >>> 32))`, that is the low
   * 32 bits of the two's-complement value XOR its high 32 bits, read back as
   * a signed `int`. A value in the `int` range hashes to itself when
   * non-negative and to its bitwise complement `-1 - v` when negative, where
   * the high half is all ones.
   */
  function LongHashCode(v: Int64): (h: Int32)
    ensures 0 <= v <= INT_MAX ==> h == v
    ensures INT_MIN <= v < 0 ==> h == -1 - v
  {
    var u := Unsigned64(v);
    var x := Xor(u % 0x1_0000_0000, u / 0x1_0000_0000, 32);
    Pow2Of32();
    HashOfIntRange(v);
    if x >= 0x8000_0000 then x - 0x1_0000_0000 else x
  }

  /** The 64 bits of a `long`, read as an unsigned number. */
  function Unsigned64(v: Int64): (u: nat)
    ensures u < 0x1_0000_0000_0000_0000
  {
    if v < 0 then v + 0x1_0000_0000_0000_0000 else v
  }

  /**
   * For a `long` in the `int` range the high half is all zeros or all ones,
   * so the XOR keeps or complements the low half.
   */
  lemma HashOfIntRange(v: Int64)
    ensures var u := Unsigned64(v);
            && (0 <= v <= INT_MAX ==> Xor(u % 0x1_0000_0000, u / 0x1_0000_0000, 32) == v)
            && (INT_MIN <= v < 0 ==> Xor(u % 0x1_0000_0000, u / 0x1_0000_0000, 32) == 0x1_0000_0000 - 1 - (0x1_0000_0000 + v))
  {
    if 0 <= v <= INT_MAX {
      var u := Unsigned64(v);
      assert u % 0x1_0000_0000 == v && u / 0x1_0000_0000 == 0;
      Pow2Of32();
      XorZero(v, 32);
    } else if INT_MIN <= v < 0 {
      LowHighOfNegative(v);
      Pow2Of32();
      XorOnes(0x1_0000_0000 + v, 0xFFFF_FFFF, 32);
    }
  }

  lemma LowHighOfNegative(v: Int64)
    requires INT_MIN <= v < 0
    ensures Unsigned64(v) % 0x1_0000_0000 == 0x1_0000_0000 + v
    ensures Unsigned64(v) / 0x1_0000_0000 == 0xFFFF_FFFF
  {
  }
}

=== FILE: java_strings.dfy ===
/**
 * The `java.lang.String` searches the literal parser uses: `indexOf(String)`
 * and `replaceAll(literal, "")`, the latter for a pattern with no regular
 * expression metacharacters, so that it removes every non-overlapping
 * occurrence found scanning from the left.
 *
 * Indices count Unicode characters rather than UTF-16 code units; the parser
 * only ever compares an index with 0, and "at index 0" means the same in both.
 */
module JavaStrings {

  /** `pat` occurs in `s` starting at index `i`. */
  predicate OccursAt(s: string, pat: string, i: int) {
    0 <= i && i + |pat| <= |s| && s[i..i + |pat|] == pat
  }

  predicate Contains(s: string, pat: string) {
    exists i | 0 <= i <= |s| - |pat| :: OccursAt(s, pat, i)
  }

  predicate StartsWith(s: string, pat: string) {
    |pat| <= |s| && s[..|pat|] == pat
  }

  predicate EndsWith(s: string, suffix: string) {
    |suffix| <= |s| && s[|s| - |suffix|..] == suffix
  }

  lemma StartsWithOccurs(s: string, pat: string)
    ensures StartsWith(s, pat) <==> OccursAt(s, pat, 0)
    ensures StartsWith(s, pat) ==> Contains(s, pat)
  {
  }

  /** A pattern whose first character is nowhere in `s` does not occur in `s`. */
  lemma AbsentFirstChar(s: string, pat: string)
    requires |pat| > 0
    requires forall i :: 0 <= i < |s| ==> s[i] != pat[0]
    ensures !Contains(s, pat)
    ensures !StartsWith(s, pat)
  {
    forall i | 0 <= i <= |s| - |pat| ensures !OccursAt(s, pat, i) {
      assert s[i..i + |pat|][0] == s[i];
    }
    StartsWithOccurs(s, pat);
  }

  /** An occurrence in `s[1..]` is an occurrence in `s`, one place further on. */
  lemma OccursInTail(s: string, pat: string, i: int)
    requires |s| > 0 && 1 <= i
    ensures OccursAt(s, pat, i) <==> OccursAt(s[1..], pat, i - 1)
  {
  }

  /**
   * `s.indexOf(pat)`: the first index at which `pat` occurs, or -1 when it
   * does not occur at all.
   */
  function IndexOf(s: string, pat: string): (r: int)
    ensures r == -1 <==> !Contains(s, pat)
    ensures r != -1 ==> OccursAt(s, pat, r)
    ensures forall j :: 0 <= j < r ==> !OccursAt(s, pat, j)
    decreases |s|
  {
    if |pat| > |s| then -1
    else if s[..|pat|] == pat then
      assert OccursAt(s, pat, 0);
      0
    else
      var k := IndexOf(s[1..], pat);
      forall j | 1 <= j ensures OccursAt(s, pat, j) <==> OccursAt(s[1..], pat, j - 1) {
        OccursInTail(s, pat, j);
      }
      assert !OccursAt(s, pat, 0);
      if k == -1 then -1
      else
        assert OccursAt(s, pat, k + 1);
        k + 1
  }

  /**
   * `s.replaceAll(pat, "")` for a literal `pat`: scanning from the left,
   * every occurrence found is removed and the scan resumes after it.
   */
  function RemoveAll(s: string, pat: string): (r: string)
    requires |pat| > 0
    ensures |r| <= |s|
    decreases |s|
  {
    if |s| < |pat| then s
    else if s[..|pat|] == pat then RemoveAll(s[|pat|..], pat)
    else [s[0]] + RemoveAll(s[1..], pat)
  }

  /**
   * The scan is a single pass: removing one occurrence can join the text
   * around it into a new one, which stays.
   */
  lemma RemoveAllSinglePass()
    ensures RemoveAll("jjsrsr", "jsr") == "jsr"
  {
  }

  /** The scan steps over a character that cannot start the pattern. */
  lemma RemoveAllSkips(s: string, pat: string)
    requires |pat| > 0 && |s| > 0
    requires s[0] != pat[0]
    ensures RemoveAll(s, pat) == [s[0]] + RemoveAll(s[1..], pat)
  {
  }

  /**
   * Every occurrence the scan meets is removed, not only the first: after a
   * stretch `d` that cannot start the pattern, an occurrence is dropped and
   * the scan carries on over the rest `b`.
   */
  lemma {:induction false} RemoveAllSplits(d: string, pat: string, b: string)
    requires |pat| > 0
    requires forall i :: 0 <= i < |d| ==> d[i] != pat[0]
    ensures RemoveAll(d + pat + b, pat) == RemoveAll(d, pat) + RemoveAll(b, pat)
    decreases |d|
  {
    var s := d + pat + b;
    if |d| == 0 {
      assert s == pat + b;
      assert s[..|pat|] == pat && s[|pat|..] == b;
      assert RemoveAll(d, pat) == [];
    } else {
      var rest := d[1..];
      assert s[0] == d[0] && s[1..] == rest + pat + b;
      forall i | 0 <= i < |rest| ensures rest[i] != pat[0] {
        assert rest[i] == d[i + 1];
      }
      RemoveAllSplits(rest, pat, b);
      RemoveAllSkips(s, pat);
      RemoveAllSkips(d, pat);
      assert RemoveAll(s, pat) == [d[0]] + (RemoveAll(rest, pat) + RemoveAll(b, pat));
    }
  }

  /** A string that contains the pattern loses at least one whole occurrence. */
  lemma {:induction false} RemoveAllShrinks(s: string, pat: string)
    requires |pat| > 0 && Contains(s, pat)
    ensures |RemoveAll(s, pat)| <= |s| - |pat|
    decreases |s|
  {
    var i :| 0 <= i <= |s| - |pat| && OccursAt(s, pat, i);
    if s[..|pat|] != pat {
      assert i != 0;
      OccursInTail(s, pat, i);
      RemoveAllShrinks(s[1..], pat);
    }
  }

  /** A string without the pattern is left as it is. */
  lemma {:induction false} RemoveAllAbsent(s: string, pat: string)
    requires |pat| > 0
    requires !Contains(s, pat)
    ensures RemoveAll(s, pat) == s
    decreases |s|
  {
    if |s| >= |pat| {
      assert !OccursAt(s, pat, 0);
      forall j | 0 <= j && OccursAt(s[1..], pat, j) ensures false {
        OccursInTail(s, pat, j + 1);
      }
      RemoveAllAbsent(s[1..], pat);
      assert s == [s[0]] + s[1..];
    }
  }

  /**
   * Removal deletes only characters of the pattern: every other character
   * survives, as many times as it occurred.
   */
  lemma {:induction false} RemoveAllKeepsOtherChars(s: string, pat: string, c: char)
    requires |pat| > 0
    requires c !in pat
    ensures multiset(RemoveAll(s, pat))[c] == multiset(s)[c]
    decreases |s|
  {
    if |s| < |pat| {
    } else if s[..|pat|] == pat {
      RemoveAllKeepsOtherChars(s[|pat|..], pat, c);
      assert s == s[..|pat|] + s[|pat|..];
      assert multiset(s[..|pat|])[c] == 0;
    } else {
      RemoveAllKeepsOtherChars(s[1..], pat, c);
      assert s == [s[0]] + s[1..];
    }
  }

  /** A character of `s` that is not in the pattern is still there after removal. */
  lemma RemoveAllKeepsChar(s: string, pat: string, i: int)
    requires |pat| > 0
    requires 0 <= i < |s| && s[i] !in pat
    ensures s[i] in RemoveAll(s, pat)
  {
    RemoveAllKeepsOtherChars(s, pat, s[i]);
    assert s[i] in multiset(s);
  }

  /**
   * Removing `"jsr"` never destroys an occurrence of `"jar"`: none of the
   * three characters of a `"jar"` can belong to a `"jsr"`.
   */
  lemma {:induction false} RemoveJsrKeepsJar(s: string)
    requires Contains(s, "jar")
    ensures Contains(RemoveAll(s, "jsr"), "jar")
    decreases |s|
  {
    var i :| 0 <= i <= |s| - 3 && OccursAt(s, "jar", i);
    assert s[i] == 'j' && s[i + 1] == 'a' && s[i + 2] == 'r' by {
      assert s[i..i + 3] == "jar";
      assert s[i..i + 3][0] == s[i] && s[i..i + 3][1] == s[i + 1] && s[i..i + 3][2] == s[i + 2];
    }
    if s[..3] == "jsr" {
      assert s[1] == 's' && s[2] == 'r' by {
        assert s[..3][1] == s[1] && s[..3][2] == s[2];
      }
      assert i >= 3;
      assert OccursAt(s[3..], "jar", i - 3) by {
        assert s[3..][i - 3..i] == s[i..i + 3];
      }
      RemoveJsrKeepsJar(s[3..]);
    } else if i == 0 {
      // the scan passes over 'j', 'a' and 'r' one character at a time
      var r := RemoveAll(s, "jsr");
      var tail := RemoveAll(s[3..], "jsr");
      RemoveAllSkips(s[1..], "jsr");
      RemoveAllSkips(s[2..], "jsr");
      assert s[1..][1..] == s[2..];
      assert s[2..][1..] == s[3..];
      assert r == "jar" + tail;
      assert OccursAt(r, "jar", 0);
    } else {
      OccursInTail(s, "jar", i);
      RemoveJsrKeepsJar(s[1..]);
      var rest := RemoveAll(s[1..], "jsr");
      var j :| 0 <= j <= |rest| - 3 && OccursAt(rest, "jar", j);
      var r := RemoveAll(s, "jsr");
      assert r == [s[0]] + rest;
      assert r[1..] == rest;
      OccursInTail(r, "jar", j + 1);
    }
  }
}

=== FILE: jsr_number.dfy ===
/**
 * Entity extraction from a LUIS response and the JSR-number literal parser
 * (`getJSRNumber`), modelled as written: the prefix tests are
 * `indexOf(...) > 0`, and the lower-case branch tests for `"jar"` but removes
 * `"jsr"`.
 */
module JsrNumber {
  import opened JavaLang
  import opened JavaStrings

  /** A LUIS entity: its type label and the literal text it covers. */
  datatype Entity = Entity(entityType: string, entity: string)

  const JSR_NUMBER_TYPE: string := "JSR_NUMBER"
  const KEYWORD_TYPE: string := "JSR-NAME-KEYWARD"

  /** Entity `i` is the first entity of type `t`. */
  predicate FirstOfTypeAt(entities: seq<Entity>, t: string, i: int) {
    && 0 <= i < |entities| && entities[i].entityType == t
    && forall j :: 0 <= j < i ==> entities[j].entityType != t
  }

  /**
   * `entities.stream().filter(type equals t).map(Entity::getEntity).findFirst()`:
   * the literal of the first entity whose type is exactly `t`, or nothing
   * when no entity has that type.
   */
  function FirstOfType(entities: seq<Entity>, t: string): (r: Option<string>)
    ensures r.None? <==> forall i :: 0 <= i < |entities| ==> entities[i].entityType != t
    ensures r.Some? ==> exists i :: FirstOfTypeAt(entities, t, i) && entities[i].entity == r.value
    decreases |entities|
  {
    if |entities| == 0 then None
    else if entities[0].entityType == t then
      assert entities[0] == Entity(t, entities[0].entity);
      Some(entities[0].entity)
    else
      var rest := FirstOfType(entities[1..], t);
      assert forall i :: 1 <= i < |entities| ==> entities[i] == entities[1..][i - 1];
      rest
  }

  /**
   * The literal parser of `getJSRNumber` once the literal is found: when
   * `"jar"` occurs past index 0, every `"jsr"` is removed and the rest
   * parsed; else when `"JSR"` occurs past index 0, every `"JSR"` is removed
   * and the rest parsed; else the whole literal is parsed. `None` is the
   * `NumberFormatException` of `Integer.valueOf`.
   *
   * The three branches amount to a much simpler parser: a literal that starts
   * with `"JSR"` is rejected, any other has every `"JSR"` removed and is
   * parsed. The lower-case branch never changes the answer.
   */
  function ParseJsrLiteral(literal: string): (r: Option<Int32>)
    ensures r == if StartsWith(literal, "JSR") then None else ParseInt(RemoveAll(literal, "JSR"))
  {
    ParseJsrBranches(literal);
    if IndexOf(literal, "jar") > 0 then ParseInt(RemoveAll(literal, "jsr"))
    else if IndexOf(literal, "JSR") > 0 then ParseInt(RemoveAll(literal, "JSR"))
    else ParseInt(literal)
  }

  /**
   * What each branch of the parser meets. The lower-case branch is only
   * taken for a literal holding an `'a'`, which neither removal deletes and
   * no numeral contains. The upper-case branch is only taken for a literal
   * that does not start with `"JSR"`. The last branch sees either a literal
   * starting with the letter `'J'` or one with no `"JSR"` at all.
   */
  lemma {:induction false} ParseJsrBranches(s: string)
    ensures IndexOf(s, "jar") > 0 ==>
              ParseInt(RemoveAll(s, "jsr")) == None && ParseInt(RemoveAll(s, "JSR")) == None
    ensures IndexOf(s, "JSR") > 0 ==> !StartsWith(s, "JSR")
    ensures IndexOf(s, "JSR") <= 0 && StartsWith(s, "JSR") ==> ParseInt(s) == None
    ensures IndexOf(s, "JSR") <= 0 && !StartsWith(s, "JSR") ==> RemoveAll(s, "JSR") == s
  {
    StartsWithOccurs(s, "JSR");
    if IndexOf(s, "jar") > 0 {
      var i := IndexOf(s, "jar");
      assert s[i..i + 3] == "jar";
      assert s[i + 1] == s[i..i + 3][1];
      HasCharA(s, i + 1);
    }
    if StartsWith(s, "JSR") {
      assert s[0] == s[..3][0];
      ParseIntRejectsForeignChar(s, 0);
    } else if IndexOf(s, "JSR") <= 0 {
      RemoveAllAbsent(s, "JSR");
    }
  }

  /**
   * `getJSRNumber`: `findFirst().get()` throws when no entity has type
   * `"JSR_NUMBER"`; otherwise the first such literal is parsed.
   */
  function JsrNumberOf(entities: seq<Entity>): (r: Result<Int32>)
    ensures (forall i :: 0 <= i < |entities| ==> entities[i].entityType != JSR_NUMBER_TYPE)
            <==> r == Err(NoSuchElementException)
    ensures r.Ok? ==> exists i :: FirstOfTypeAt(entities, JSR_NUMBER_TYPE, i)
                               && ParseJsrLiteral(entities[i].entity) == Some(r.value)
    ensures r == Err(NumberFormatException) ==> exists i :: FirstOfTypeAt(entities, JSR_NUMBER_TYPE, i)
                                                      && ParseJsrLiteral(entities[i].entity) == None
    ensures r.Err? ==> r.error == NoSuchElementException || r.error == NumberFormatException
  {
    match FirstOfType(entities, JSR_NUMBER_TYPE)
    case None => Err(NoSuchElementException)
    case Some(literal) =>
      match ParseJsrLiteral(literal)
      case None => Err(NumberFormatException)
      case Some(n) => Ok(n)
  }

  // ---------------------------------------------------------------------------
  // What the parser accepts
  // ---------------------------------------------------------------------------

  /** 'a' is never removed by either removal and never parses. */
  lemma HasCharA(s: string, i: int)
    requires 0 <= i < |s| && s[i] == 'a'
    ensures ParseInt(RemoveAll(s, "jsr")) == None
    ensures ParseInt(RemoveAll(s, "JSR")) == None
    ensures ParseInt(s) == None
  {
    RemoveAllKeepsChar(s, "jsr", i);
    RemoveAllKeepsChar(s, "JSR", i);
    var r1 := RemoveAll(s, "jsr");
    var k1 :| 0 <= k1 < |r1| && r1[k1] == 'a';
    ParseIntRejectsForeignChar(r1, k1);
    var r2 := RemoveAll(s, "JSR");
    var k2 :| 0 <= k2 < |r2| && r2[k2] == 'a';
    ParseIntRejectsForeignChar(r2, k2);
    ParseIntRejectsForeignChar(s, i);
  }

  /** A literal that starts with `"JSR"`, such as `"JSR299"`, never parses. */
  lemma LeadingJsrRejected(s: string)
    requires StartsWith(s, "JSR")
    ensures ParseJsrLiteral(s) == None
  {
  }

  /**
   * A literal with `"jar"` past index 0 takes the lower-case branch and
   * always fails: removing `"jsr"` leaves the `"jar"` in place.
   */
  lemma JarLiteralRejected(s: string)
    requires IndexOf(s, "jar") > 0
    ensures Contains(RemoveAll(s, "jsr"), "jar")
    ensures ParseJsrLiteral(s) == None
  {
    RemoveJsrKeepsJar(s);
    var r := RemoveAll(s, "jsr");
    var k :| 0 <= k <= |r| - 3 && OccursAt(r, "jar", k);
    assert r[k] == r[k..k + 3][0];
    ParseIntRejectsForeignChar(r, k);
  }

  /** A lower-case literal such as `"jsr199"` never parses: its `'j'` survives every branch. */
  lemma LowerCaseJsrRejected(s: string)
    requires StartsWith(s, "jsr")
    ensures ParseJsrLiteral(s) == None
  {
  }

  /** A plain decimal literal, as `Integer.toString` prints it, parses to its value. */
  lemma PlainNumeralAccepted(n: Int32)
    ensures ParseJsrLiteral(ToDecimal(n)) == Some(n)
  {
    var s := ToDecimal(n);
    ParseIntToDecimal(n);
    forall i | 0 <= i < |s| ensures s[i] == '-' || IsDigit(s[i]) {
      if n < 0 {
        var digits := NatToDecimal(-(n as int));
        assert s == "-" + digits;
        if i > 0 { assert s[i] == digits[i - 1]; }
      }
    }
    AbsentFirstChar(s, "JSR");
    RemoveAllAbsent(s, "JSR");
  }

  /** A `"JSR"` after the digits is stripped: `"299JSR"` reads as 299. */
  lemma TrailingJsrStripped(n: nat)
    requires n <= INT_MAX
    ensures ParseJsrLiteral(NatToDecimal(n) + "JSR") == Some(n)
  {
    var d := NatToDecimal(n);
    var s := d + "JSR";
    assert !StartsWith(s, "JSR") by {
      assert s[0] == d[0];
      assert IsDigit(s[0]);
    }
    AbsentFirstChar(d, "JSR");
    assert RemoveAll(s, "JSR") == d by {
      RemoveAllSplits(d, "JSR", "");
      assert s + "" == s;
      RemoveAllAbsent(d, "JSR");
    }
    ParseIntToDecimal(n);
  }
}

=== FILE: jsr_result.dfy ===
/**
 * The record the lookup and search services return (`JSRResultJSONMapping`)
 * and its identity contract: two records are equal exactly when their `id`
 * fields are, and the hash code is that of the `id` alone.
 */
module JsrResult {
  import opened JavaLang

  /**
   * The record's fields that carry data the bot reads or that equality must
   * ignore. Every field is a nullable reference; the date fields and the list
   * of spec leads are not modelled.
   */
  datatype JsrRecord = JsrRecord(
    id: Option<Int64>,
    jsrId: Option<Int32>,
    description: Option<string>,
    nameOfJsr: Option<string>,
    reason: Option<string>,
    latestStage: Option<string>,
    currentStatus: Option<string>)

  /** The argument of `equals(Object)`: null, a record, or an object of another class. */
  datatype JavaObject = NullRef | RecordObject(record: JsrRecord) | OtherObject

  /**
   * `Objects.equals` on two `Long` references: null equals only null, and
   * `Long.equals` compares the values.
   */
  predicate SameId(a: Option<Int64>, b: Option<Int64>) {
    if a.None? then b.None? else b.Some? && a.value == b.value
  }

  /**
   * `equals(Object)`: true for the same record, false for null and for
   * another class, otherwise `Objects.equals(this.id, other.id)`. A record is
   * a value here, so the identity shortcut is subsumed by comparing ids.
   */
  function Equals(self: JsrRecord, obj: JavaObject): (eq: bool)
    ensures obj.RecordObject? ==> (eq <==> self.id == obj.record.id)
    ensures !obj.RecordObject? ==> !eq
  {
    match obj
    case NullRef => false
    case OtherObject => false
    case RecordObject(other) => SameId(self.id, other.id)
  }

  /**
   * `hashCode()`: 0 plus the hash of `id`, where a null `id` adds nothing; an
   * id in the `int` range hashes to itself, or to its complement when negative.
   */
  function HashCode(self: JsrRecord): (h: Int32)
    ensures self.id.None? ==> h == 0
    ensures self.id.Some? && 0 <= self.id.value <= INT_MAX ==> h == self.id.value
    ensures self.id.Some? && INT_MIN <= self.id.value < 0 ==> h == -1 - self.id.value
  {
    var idHash: Int32 := if self.id.Some? then LongHashCode(self.id.value) else 0;
    0 + idHash
  }

  /** Two records whose ids are both null are equal. */
  lemma NullIdsAreEqual(a: JsrRecord, b: JsrRecord)
    requires a.id.None? && b.id.None?
    ensures Equals(a, RecordObject(b))
  {
  }

  /** `equals` is reflexive, and never true of null or of another class. */
  lemma EqualsReflexiveNotNull(a: JsrRecord)
    ensures Equals(a, RecordObject(a))
    ensures !Equals(a, NullRef) && !Equals(a, OtherObject)
  {
  }

  /** `equals` is symmetric and transitive, so it is an equivalence on records. */
  lemma EqualsEquivalence(a: JsrRecord, b: JsrRecord, c: JsrRecord)
    ensures Equals(a, RecordObject(b)) ==> Equals(b, RecordObject(a))
    ensures Equals(a, RecordObject(b)) && Equals(b, RecordObject(c)) ==> Equals(a, RecordObject(c))
  {
  }

  /** Equal records have equal hash codes. */
  lemma HashCodeConsistent(a: JsrRecord, b: JsrRecord)
    requires Equals(a, RecordObject(b))
    ensures HashCode(a) == HashCode(b)
  {
  }
}

=== FILE: receiver_properties.dfy ===
/**
 * What each handler replies for each downstream outcome, and what the router
 * and the gate promise across handlers.
 */
module ReceiverProperties {
  import opened JavaLang
  import opened JavaStrings
  import opened JsrResult
  import opened Http
  import opened JsrNumber
  import opened Trace
  import opened BotMessageReceiver

  // ---------------------------------------------------------------------------
  // Detail handler
  // ---------------------------------------------------------------------------

  /**
   * The detail handler's replies for each lookup outcome: the description
   * and detail page on a 2xx record, "not found" on any other status, and an
   * abort without reply on a 2xx body that is not a record.
   */
  lemma DetailReplies(env: Env, entities: seq<Entity>)
    ensures JsrNumberOf(entities).Ok? ==>
            var n := JsrNumberOf(entities).value;
            var response := env.get(LookupUrl(n));
            var r := DetailHandler(env, entities);
            && (IsRequestSuccess(response) && response.body.RecordJson? ==>
                  r.outcome == Done && Replies(r.trace) == [DetailReply(n, response.body.record.description)])
            && (IsRequestSuccess(response) && !response.body.RecordJson? ==>
                  r == Run(Abort(ProcessingException), [HttpGet(LookupUrl(n))]))
            && (!IsRequestSuccess(response) ==> r.outcome == Done && Replies(r.trace) == [NOT_FOUND])
  {
    if JsrNumberOf(entities).Ok? {
      var n := JsrNumberOf(entities).value;
      var response := env.get(LookupUrl(n));
      var lookup := [HttpGet(LookupUrl(n))];
      OneEvent(HttpGet(LookupUrl(n)));
      if IsRequestSuccess(response) && response.body.RecordJson? {
        var reply := Reply(DetailReply(n, response.body.record.description));
        OneEvent(reply);
        RepliesAppend(lookup, [reply]);
      } else if !IsRequestSuccess(response) {
        OneEvent(Reply(NOT_FOUND));
        RepliesAppend(lookup, [Reply(NOT_FOUND)]);
      }
    }
  }

  /** A missing `"JSR_NUMBER"` entity aborts both number handlers before any call or reply. */
  lemma MissingNumberAborts(env: Env, entities: seq<Entity>)
    requires forall i :: 0 <= i < |entities| ==> entities[i].entityType != JSR_NUMBER_TYPE
    ensures DetailHandler(env, entities) == Run(Abort(NoSuchElementException), [])
    ensures TranslateHandler(env, entities) == Run(Abort(NoSuchElementException), [])
  {
  }

  /** The example of a 2xx lookup of JSR 318 whose description is "Enterprise Beans". */
  lemma DetailExample(env: Env, record: JsrRecord)
    requires record.description == Some("Enterprise Beans")
    requires env.get(LookupUrl(318)) == HttpResponse(200, RecordJson(record))
    ensures Replies(DetailHandler(env, [Entity("JSR_NUMBER", "318")]).trace)
            == ["JSR " + "318" + " の詳細は 「" + "Enterprise Beans" + "」 です。<BR>"
                + "https://jcp.org/en/jsr/detail?id=" + "318"]
  {
    Decimal318();
    PlainNumeralAccepted(318);
    var entities := [Entity("JSR_NUMBER", "318")];
    assert FirstOfType(entities, JSR_NUMBER_TYPE) == Some("318");
    assert JsrNumberOf(entities) == Ok(318);
    DetailReplies(env, entities);
    assert IsRequestSuccess(env.get(LookupUrl(318)));
    Regroup("JSR ", "318", " の詳細は 「", "Enterprise Beans", "」 です。<BR>", DETAIL_PAGE, "318");
  }

  lemma Decimal318()
    ensures ToDecimal(318) == "318"
  {
  }

  /** How the reply builders group a concatenation, against how the source writes it. */
  lemma Regroup(a: string, b: string, c: string, d: string, e: string, f: string, g: string)
    ensures a + b + c + d + (e + (f + g)) == a + b + c + d + e + f + g
  {
  }

  // ---------------------------------------------------------------------------
  // Ambiguous-search handler
  // ---------------------------------------------------------------------------

  /**
   * On a 2xx list of k records the ambiguous search sends 1 + k replies: the
   * count, then one reply per record in list order.
   */
  lemma AmbiguousListReplies(env: Env, entities: seq<Entity>, keyword: string)
    requires FirstOfType(entities, KEYWORD_TYPE) == Some(keyword)
    requires IsRequestSuccess(env.get(SearchUrl(keyword)))
    requires env.get(SearchUrl(keyword)).body.RecordListJson?
    ensures var records := env.get(SearchUrl(keyword)).body.records;
            var replies := Replies(AmbiguousHandler(env, entities).trace);
            && |replies| == 1 + |records|
            && replies[0] == SummaryReply(|records|)
            && forall i :: 0 <= i < |records| ==> replies[i + 1] == RecordReply(records[i])
  {
    var messages := ListingReplies(env.get(SearchUrl(keyword)).body.records);
    AmbiguousListTrace(env, entities, keyword);
    GetThenSends(SearchUrl(keyword), messages);
  }

  lemma AmbiguousListTrace(env: Env, entities: seq<Entity>, keyword: string)
    requires FirstOfType(entities, KEYWORD_TYPE) == Some(keyword)
    requires IsRequestSuccess(env.get(SearchUrl(keyword)))
    requires env.get(SearchUrl(keyword)).body.RecordListJson?
    ensures AmbiguousHandler(env, entities).trace
            == [HttpGet(SearchUrl(keyword))] + Sends(ListingReplies(env.get(SearchUrl(keyword)).body.records))
  {
  }

  lemma GetThenSends(url: string, messages: seq<string>)
    ensures Replies([HttpGet(url)] + Sends(messages)) == messages
  {
  }

  /** A 2xx body that is not a list of records is only logged: the search happens, no reply follows. */
  lemma AmbiguousMalformedIsSilent(env: Env, entities: seq<Entity>, keyword: string)
    requires FirstOfType(entities, KEYWORD_TYPE) == Some(keyword)
    requires IsRequestSuccess(env.get(SearchUrl(keyword)))
    requires !env.get(SearchUrl(keyword)).body.RecordListJson?
    ensures AmbiguousHandler(env, entities) == Run(Done, [HttpGet(SearchUrl(keyword))])
  {
  }

  /** A search that is not 2xx gets exactly the "nothing found" reply. */
  lemma AmbiguousFailureReply(env: Env, entities: seq<Entity>, keyword: string)
    requires FirstOfType(entities, KEYWORD_TYPE) == Some(keyword)
    requires !IsRequestSuccess(env.get(SearchUrl(keyword)))
    ensures AmbiguousHandler(env, entities) == Run(Done, [HttpGet(SearchUrl(keyword)), Reply(NOTHING_FOUND)])
    ensures Replies(AmbiguousHandler(env, entities).trace) == [NOTHING_FOUND]
  {
  }

  /** No keyword entity: no search and no reply. */
  lemma MissingKeywordIsSilent(env: Env, entities: seq<Entity>)
    requires forall i :: 0 <= i < |entities| ==> entities[i].entityType != KEYWORD_TYPE
    ensures AmbiguousHandler(env, entities) == Run(Done, [])
  {
  }

  // ---------------------------------------------------------------------------
  // Translate handler
  // ---------------------------------------------------------------------------

  /**
   * The translate handler's replies: "could not translate" when the lookup
   * is not 2xx; with a token, exactly one reply carrying the translation of
   * the looked-up description; without a token, none.
   */
  lemma TranslateReplies(env: Env, entities: seq<Entity>)
    ensures JsrNumberOf(entities).Ok? ==>
            var n := JsrNumberOf(entities).value;
            var response := env.get(LookupUrl(n));
            var r := TranslateHandler(env, entities);
            && (!IsRequestSuccess(response) ==> r.outcome == Done && Replies(r.trace) == [NOT_TRANSLATED])
            && (IsRequestSuccess(response) && !response.body.RecordJson? ==>
                  r == Run(Abort(ProcessingException), [HttpGet(LookupUrl(n))]))
            && (IsRequestSuccess(response) && response.body.RecordJson? ==>
                  var description := response.body.record.description;
                  && r.outcome == Done
                  && (env.translatorToken.None? ==> Replies(r.trace) == [])
                  && (env.translatorToken.Some? ==>
                        && CallTranslator(description, env.translatorToken.value) in r.trace
                        && Replies(r.trace)
                           == [TranslationReply(n, env.translate(description, env.translatorToken.value))]))
  {
  }

  // ---------------------------------------------------------------------------
  // Router and gate
  // ---------------------------------------------------------------------------

  /** An unknown intent label gets the help text as its only reply. */
  lemma UnknownIntentGetsHelp(env: Env, text: string)
    requires env.luis(text).Some?
    requires env.luis(text).value.topIntent !in {DETAIL_INTENT, AMBIGUOUS_INTENT, TRANSLATE_INTENT}
    ensures InvokeLuisAndSendResponse(env, text) == Run(Done, [CallLuis(text), Reply(HELP)])
    ensures Replies(InvokeLuisAndSendResponse(env, text).trace) == [HELP]
  {
  }

  /** Without an answer from LUIS, nothing runs and nothing is sent. */
  lemma NoLuisAnswerIsSilent(env: Env, text: string)
    requires env.luis(text).None?
    ensures Replies(InvokeLuisAndSendResponse(env, text).trace) == []
  {
  }

  /**
   * Every intent except the ambiguous search sends at most one reply; the
   * ambiguous search may send one per record found.
   */
  lemma AtMostOneReplyUnlessAmbiguous(env: Env, text: string)
    requires env.luis(text).Some?
    requires env.luis(text).value.topIntent != AMBIGUOUS_INTENT
    ensures |Replies(InvokeLuisAndSendResponse(env, text).trace)| <= 1
  {
  }

  /**
   * A message with no action and a non-empty id reaches LUIS exactly once,
   * and what follows is exactly the run of the handler its top intent
   * selects.
   */
  lemma GateRoutesToOneHandler(env: Env, message: Message)
    requires message.action.None? && message.id != ""
    requires env.luis(message.text).Some?
    ensures var luis := env.luis(message.text).value;
            var r := InvokeService(env, message);
            && LuisCalls(r.trace) == 1
            && r.trace[1..] == Handle(env, IntentOf(luis.topIntent), luis.entities).trace
  {
  }
}

=== FILE: trace.dfy ===
/**
 * What one processed message does to the outside world, in order: the calls
 * it makes to external services and the chat replies it sends. A run ends
 * normally, or aborts with the exception that escaped the background task;
 * either way the events before the abort have already happened.
 */
module Trace {
  import opened JavaLang

  datatype Event =
    | CallLuis(query: string)                             // LUISService.getResponseFromLUIS
    | HttpGet(url: string)                                // a GET to the lookup or search service
    | FetchTranslatorToken                                // TranslatorTextServices.getAccessTokenForTranslator
    | CallTranslator(text: Option<string>, token: string) // TranslatorTextServices.translateEnglish
    | Reply(message: string)                              // sendMessageToBotFramework

  datatype Outcome = Done | Abort(cause: JavaException)

  datatype Run = Run(outcome: Outcome, trace: seq<Event>)

  /** The chat messages a trace sends, in order. */
  function Replies(trace: seq<Event>): (messages: seq<string>)
    ensures |messages| <= |trace|
  {
    if |trace| == 0 then []
    else (if trace[0].Reply? then [trace[0].message] else []) + Replies(trace[1..])
  }

  /** How many times a trace calls LUIS. */
  function LuisCalls(trace: seq<Event>): (count: nat)
    ensures count <= |trace|
  {
    if |trace| == 0 then 0
    else (if trace[0].CallLuis? then 1 else 0) + LuisCalls(trace[1..])
  }

  /** Sending each message in turn, as `forEach(sendMessageToBotFramework)` does. */
  function Sends(messages: seq<string>): (trace: seq<Event>)
    ensures |trace| == |messages|
    ensures forall i :: 0 <= i < |messages| ==> trace[i] == Reply(messages[i])
  {
    if |messages| == 0 then []
    else [Reply(messages[0])] + Sends(messages[1..])
  }

  /** The replies of two traces run one after the other. */
  lemma {:induction false} RepliesAppend(a: seq<Event>, b: seq<Event>)
    ensures Replies(a + b) == Replies(a) + Replies(b)
    ensures LuisCalls(a + b) == LuisCalls(a) + LuisCalls(b)
    decreases |a|
  {
    if |a| > 0 {
      assert (a + b)[0] == a[0];
      assert (a + b)[1..] == a[1..] + b;
      RepliesAppend(a[1..], b);
    } else {
      assert a + b == b;
    }
  }

  /** A trace made only of replies sends exactly its messages and calls nothing. */
  lemma {:induction false} SendsReplies(messages: seq<string>)
    ensures Replies(Sends(messages)) == messages
    ensures LuisCalls(Sends(messages)) == 0
    decreases |messages|
  {
    if |messages| > 0 {
      var t := Sends(messages);
      assert t[1..] == Sends(messages[1..]);
      SendsReplies(messages[1..]);
      assert messages == [messages[0]] + messages[1..];
    }
  }

  /** The replies and LUIS calls of a single event. */
  lemma OneEvent(e: Event)
    ensures Replies([e]) == (if e.Reply? then [e.message] else [])
    ensures LuisCalls([e]) == (if e.CallLuis? then 1 else 0)
  {
  }

  /** Two events that are neither replies nor LUIS calls, then one reply: exactly that reply is sent. */
  lemma SilentThenReply(a: Event, b: Event, message: string)
    requires !a.Reply? && !a.CallLuis? && !b.Reply? && !b.CallLuis?
    ensures Replies([a, b, Reply(message)]) == [message]
    ensures LuisCalls([a, b, Reply(message)]) == 0
  {
    assert [a, b, Reply(message)][1..] == [b, Reply(message)];
    assert [b, Reply(message)][1..] == [Reply(message)];
    OneEvent(Reply(message));
  }
}
